=== FILE: README.md ===
# Service-class synthesis of Spring-Annotations' `ServiceGenerator`

This project models the core of the annotation processor's `ServiceGenerator`.
For one entity it takes the entity's name, its `@CRUD` settings (a pagination
flag and the filter's field array) and its ordered endpoint elements. From these
it builds the description of a Spring service class:

- the class name, and its single injected `repository` field;
- the fixed methods `save`, `one` and `delete`;
- one list method, `all` or `allByFilter`, shaped by the filter and by pagination;
- one forwarding method per endpoint element, in input order.

The repository holds two near-identical copies of the generator:
`has/generators/crud` and `main/generators/crud`. They share one model. A
`Package` value (`Has` or `Main`) held by the generator object picks the copy.
The copies differ in two ways:

- `Has` sends executable elements to their own lowering. That lowering takes
  `id` plus the member's parameters and forwards to the member. `Main` lowers
  every element as a field accessor.
- In a field endpoint's statement, `Has` puts a line break before `.get` and
  `Main` does not.

Modules:

- `Poet` (poet.dfy) holds immutable records for the generated method, field and
  class descriptions. Method bodies stay as un-substituted format strings (`$T`,
  `$S`) with their argument lists. It also holds `MethodBuilder`, a class for the
  method builder that the generator changes in place.
- `Text` (text.dfy) holds the string operations: joining with `", "`, ASCII
  capitalisation, and a distinctness helper.
- `ServiceSpec` (service_spec.dfy) gives what each generated method and the
  whole class must be, as pure functions. It also holds the page-window rule
  that the emitted code follows at run time.
- `ServiceGenerator` (service_generator.dfy) holds the generator object. Its
  `pagination` field is set by `Generate` and read by the list-method builders.
  The builders grow a `MethodBuilder`. `GetReturn` appends to a buffer in a loop.
  The endpoint accumulation in `Generate` is a loop. Each method is proved to
  build exactly the value `ServiceSpec` defines.
- `ServiceProperties` (service_properties.dfy) holds the lemmas about those values.

Some behaviour of the code, stated explicitly by the model:

- Parameter names are not guaranteed to be unique. A filter field called `page`
  or `pageSize` collides with the pagination parameters when pagination is on,
  and an executable parameter called `id` collides with the `id` parameter.
  `FilterParameterNamesDistinct` and `MethodEndpointForwards` state exactly when
  the names are unique.
- An executable endpoint looks the record up in the entity's own `repository`.
  The declaring element's name appears only in the exception.
- In the `main` copy, an executable endpoint becomes a `.get<Name>()` accessor
  with only `id`. It does not forward its parameters.
- All four fixed methods are always emitted. `generate` reads only `pagination()` and `filter().fields()`
  from `@CRUD`; no other attribute changes which methods are emitted.
- `addArguments` resolves each filter name through `eleUtils.getEnclosedElement`. What that helper does
  with a name the entity does not declare is not in the source, and the model leaves that case out.

## Model

| member | source | states |
|---|---|---|
| `ServiceGenerator.ServiceGenerator.constructor` | src/main/java/has/generators/crud/ServiceGenerator.java:34-41 | the generator keeps the three naming conventions it is given; pagination starts off |
| `ServiceGenerator.ServiceGenerator.Generate` | src/main/java/has/generators/crud/ServiceGenerator.java:43-90 | records the entity's pagination flag on the generator and returns exactly the specified class: the four fixed methods, then one lowered method per endpoint in input order |
| `ServiceGenerator.ServiceGenerator.CreateMethod` | src/main/java/has/generators/crud/ServiceGenerator.java:222-227 | a fresh builder for a method of the given name, with no parameters, exceptions or statements |
| `ServiceGenerator.ServiceGenerator.SimpleAll` | src/main/java/has/generators/crud/ServiceGenerator.java:137-151 | builds `all`: no parameters and `findAll()` without pagination; with pagination `page`, `pageSize`, the window block and `findAll(pageable)` |
| `ServiceGenerator.ServiceGenerator.FilterableAll` | src/main/java/has/generators/crud/ServiceGenerator.java:153-173 | builds `allByFilter` over the resolved fields: field parameters, then pagination, then the returned query |
| `ServiceGenerator.ServiceGenerator.GetReturn` | src/main/java/has/generators/crud/ServiceGenerator.java:175-191 | the buffer loop yields the query prefix, the fields joined by `", "`, then `", pageable"` when pagination is on, then `"))"` |
| `ServiceGenerator.ServiceGenerator.AddArguments` | src/main/java/main/generators/crud/ServiceGenerator.java:172-185 | appends one parameter per field, in order, named after the field and typed with its declared type; nothing else in the builder changes |
| `ServiceGenerator.ServiceGenerator.AddPageability` | src/main/java/has/generators/crud/ServiceGenerator.java:208-219 | appends exactly `page` then `pageSize` (both `Integer`) to the parameters and the null-guarded window block to the body; nothing else changes |
| `Text.UpperAscii` | src/main/java/has/generators/crud/ServiceGenerator.java:103 | the result is never a lower-case ASCII letter; a lower-case letter maps to its upper-case form, and any other character is kept |
| `Text.Capitalize` | src/main/java/main/generators/crud/ServiceGenerator.java:101-102 | same length; everything after the first character is unchanged; the first character is no longer lower-case, and if it changed it was a lower-case letter |
| `Text.JoinSnoc` | src/main/java/has/generators/crud/ServiceGenerator.java:179-184 | appending a field adds exactly one separator, placed before it, so no separator follows the last field |
| `ServiceSpec.SaveMethod` | src/main/java/has/generators/crud/ServiceGenerator.java:51-54 | `save` takes the entity parameter, declares no exception, and its one statement returns `ResponseEntity.ok` of the repository's `save` applied to that `entity` parameter |
| `ServiceSpec.OneMethod` | src/main/java/has/generators/crud/ServiceGenerator.java:56-62 | `one` takes `id`, declares `EntityNotFoundException`, and has one statement that starts with the look-up and passes the entity's own name to the exception |
| `ServiceSpec.DeleteMethod` | src/main/java/has/generators/crud/ServiceGenerator.java:66-70 | `delete` takes `id`, declares nothing, deletes by id, then returns a new `ResponseEntity` with status `HttpStatus.NO_CONTENT` |
| `ServiceSpec.ResolveFields` | src/main/java/main/generators/crud/ServiceGenerator.java:134-141 | exactly the array `["*"]` becomes the non-transient field list; every other array, including one that holds `"*"` among other names, is used unchanged |
| `ServiceSpec.CreateEndpoint` | src/main/java/has/generators/crud/ServiceGenerator.java:93-98 | in both copies an endpoint method keeps the element's name, takes `id` first (then the member's parameters only for an executable in `has`), declares only `EntityNotFoundException`, and has one statement that starts with the look-up and passes the declaring element's name to the exception |
| `ServiceSpec.FieldEndpoint` | src/main/java/has/generators/crud/ServiceGenerator.java:100-115 | a field endpoint takes only `id` and its one statement is the look-up followed by `.get` + the capitalised name + `())` |
| `ServiceSpec.MethodEndpoint` | src/main/java/has/generators/crud/ServiceGenerator.java:117-135 | an executable endpoint takes `id` then the member's parameters, and its one statement is the look-up followed by `.` + the member's name + its call arguments + `)` |
| `ServiceSpec.ServiceClass` | src/main/java/main/generators/crud/ServiceGenerator.java:78-93 | the class is named `classesPrefix + name + suffix`, is public and a component, has exactly one field (the autowired `repository` of type `classesPrefix + name + repSuffix`), then `save`, `one`, the list method, `delete`, and method 4 + i is endpoint i's lowering |
| `ServiceSpec.PageWindow` | src/main/java/has/generators/crud/ServiceGenerator.java:213-218 | at run time, when the page or the page size is missing the window is `(0, Integer.MAX_VALUE)`; when both are present it is `(page, pageSize)` |
| `ServiceProperties.MethodOrder` | src/main/java/has/generators/crud/ServiceGenerator.java:82-87 | the class has 4 + number-of-endpoints methods, named `save, one, <list method>, delete`, then each endpoint's name in input order; the first four are exactly `save`, `one`, the list method and `delete` |
| `ServiceProperties.FieldEndpointAccessor` | src/main/java/has/generators/crud/ServiceGenerator.java:100-115 | a field endpoint takes only `id`; its statement is the look-up, a line break in `has` only, then `.get` + the capitalised name + `())` |
| `ServiceProperties.MainEndpointIsAccessor` | src/main/java/main/generators/crud/ServiceGenerator.java:99-114 | in `main`, any element, executable or not, is lowered exactly as a field of the same name and declaring element, with the single parameter `id` |
| `ServiceProperties.MethodEndpointForwards` | src/main/java/has/generators/crud/ServiceGenerator.java:117-135 | in `has`, an executable endpoint takes `id` followed by the member's own parameters in order; its parameter names are distinct if and only if the member's are distinct and none is `id`; given the assumed behaviour of the element utilities' call-argument text and parameter adding, its call forwards the parameters after `id` by name, in order |
| `ServiceProperties.ListMethodSelection` | src/main/java/main/generators/crud/ServiceGenerator.java:70 | the list method is `allByFilter` if and only if the filter's field array is non-empty, and `all` if and only if it is empty; it declares no exception |
| `ServiceProperties.FilterParameters` | src/main/java/has/generators/crud/ServiceGenerator.java:164-168 | `allByFilter` has `|resolved| + (2 if paginated else 0)` parameters; the first ones are the resolved fields in order, each named and typed after its field, and the rest are exactly `page, pageSize` when paginated and nothing otherwise |
| `ServiceProperties.FilterParameterNamesDistinct` | src/main/java/has/generators/crud/ServiceGenerator.java:193-211 | `allByFilter`'s parameter names are distinct if and only if the resolved fields are distinct and, when paginated, none is `page` or `pageSize` |
| `ServiceProperties.FilterQueryForwardsParameters` | src/main/java/main/generators/crud/ServiceGenerator.java:143-150 | the last statement of `allByFilter` passes the names of its field parameters, in order, then `pageable` exactly when paginated |
| `ServiceProperties.ReturnTextSeparators` | src/main/java/main/generators/crud/ServiceGenerator.java:154-170 | adding a field to the query adds `", "` and the field before the pagination tail, so no separator follows the last field |
| `ServiceProperties.EmptyWildcardQuery` | src/main/java/has/generators/crud/ServiceGenerator.java:179-187 | `["*"]` over an entity with no non-transient fields, with pagination on, gives the parameters `page, pageSize` and the query `allByFilter(, pageable))` |
| `ServiceProperties.PaginationLowering` | src/main/java/main/generators/crud/ServiceGenerator.java:116-152 | for either list method, pagination on means the parameters end in `page, pageSize`, the body opens with the window block and its final statement ends in `pageable))`; pagination off means a one-statement body, and no parameters for `all` |
| `ServiceProperties.PageWindowJointDefault` | src/main/java/has/generators/crud/ServiceGenerator.java:213-218 | the default is joint, not per argument: a missing page or page size gives the same window as both missing, so a lone page size other than `Integer.MAX_VALUE` is discarded, and so is a lone page other than 0 |
| `ServiceProperties.PageGuardText` | src/main/java/has/generators/crud/ServiceGenerator.java:214 | the window block opens on exactly `if (page == null \|\| pageSize == null)`, the condition `PageWindow` interprets |
| `ServiceProperties.UserScenario` | src/main/java/main/generators/crud/ServiceGenerator.java:187-197 | a paginated unfiltered entity gets `all(page, pageSize)`; a call with only `pageSize = 5` gets the unrestricted window, not `(0, 5)` |
| `ServiceProperties.OrderScenario` | src/main/java/has/generators/crud/ServiceGenerator.java:82-98 | for `Order` with field `status` and executable `recalculate`, the method names are exactly `save, one, all, delete, status, recalculate` |
| `ServiceProperties.ProductScenario` | src/main/java/main/generators/crud/ServiceGenerator.java:132-152 | `Product` filtered by `category, minPrice` without pagination gets `allByFilter(category, minPrice)`, whose single statement passes both in that order and no window |

## Left out

- JavaPoet itself is not modelled: building the specs, substituting `$T`/`$S`, and rendering source text. The specs are records. `MethodBuilder` only appends to one part per call.
- The `public` modifier and the `ResponseEntity` return type that every generated method gets are not recorded. They are the same for every method.
- Annotations are recorded as flags only: `@Component` on the class and `@Autowired` on the field.
- The `javax.lang.model` element API and the element utilities are not part of this model. They become inputs:
  - the entity's type and its identifier's type;
  - the non-transient field names;
  - a field-type function;
  - each executable's parameter list.
- The entity and id parameters are assumed to be named `entity` and `id`. The emitted statements use those names.
- The text that the element utilities produce for an executable's call arguments is assumed to be the parameter names joined by `", "` in parentheses.
- Adding an executable's parameters is assumed to append them in declaration order.
- The parameter builder is not part of this model: `name(n).type(t).build()` is assumed to yield exactly the parameter `Param(n, t)`, with no modifiers or annotations.
- An element kind other than field or executable does not exist in the model. In the `has` copy such an element would fail its cast.
- A filter field that the entity does not declare is not modelled. The field-type function is total.
- `Text.Capitalize` upper-cases ASCII `a`-`z` only, where Java's `toUpperCase` is locale-dependent.
- `Text.Capitalize` requires a non-empty name, because `charAt(0)` fails on an empty one. For that reason `Generate` requires every name that is capitalised to be non-empty.
- The runtime behaviour of the generated Spring code is not modelled, apart from the page-window rule (`ServiceSpec.PageWindow`). That covers repository queries, `ResponseEntity`/`HttpStatus` semantics and `PageRequest`.
- The `Generator`/`CodeGenerator` base class and the annotation-processing pipeline that calls `generate` are not part of this model.

=== FILE: poet.dfy ===
/** Immutable records for the code descriptions the generator builds (JavaPoet's
    `MethodSpec`, `FieldSpec` and `TypeSpec`), and the method builder that the
    generator grows in place. Nothing here is rendered: a body is kept as its
    un-substituted format strings (`$T`, `$S`) with their argument lists. */
module Poet {

  /** The types a generated class refers to: the fixed library classes the
      generator names, or a type it was handed by its element utilities. */
  datatype TypeRef =
    | ResponseEntity
    | EntityNotFoundException
    | HttpStatus
    | Pageable
    | PageRequest
    | JavaInteger
    | Declared(name: string)

  /** An argument for a format string: `$T` takes a type, `$S` a string literal. */
  datatype Arg = TypeArg(t: TypeRef) | StringArg(s: string)

  /** One fragment of a method body, in the order the builder received it. */
  datatype CodeLine =
    | Statement(format: string, args: seq<Arg>)
    | BeginFlow(format: string, args: seq<Arg>)
    | NextFlow(format: string, args: seq<Arg>)
    | EndFlow

  datatype Param = Param(name: string, typ: TypeRef)

  /** A generated method. Every method the generator creates is public and
      returns `ResponseEntity`, so neither is recorded. */
  datatype MethodSpec = MethodSpec(
    name: string,
    parameters: seq<Param>,
    exceptions: seq<TypeRef>,
    code: seq<CodeLine>)

  datatype FieldSpec = FieldSpec(name: string, typeName: string, autowired: bool)

  /** A generated class; `component` records the `@Component` annotation. */
  datatype TypeSpec = TypeSpec(
    name: string,
    isPublic: bool,
    component: bool,
    fields: seq<FieldSpec>,
    methods: seq<MethodSpec>)

  /** `f` applied to each element, in order. */
  function MapSeq<T, U>(s: seq<T>, f: T -> U): (r: seq<U>)
    ensures |r| == |s|
    ensures forall i :: 0 <= i < |s| ==> r[i] == f(s[i])
  {
    seq(|s|, i requires 0 <= i < |s| => f(s[i]))
  }

  function ParamNames(ps: seq<Param>): seq<string>
  {
    MapSeq(ps, (p: Param) => p.name)
  }

  function MethodNames(ms: seq<MethodSpec>): seq<string>
  {
    MapSeq(ms, (m: MethodSpec) => m.name)
  }

  /** A `MethodSpec.Builder`: every call appends to one part of the method. */
  class MethodBuilder {
    var name: string
    var parameters: seq<Param>
    var exceptions: seq<TypeRef>
    var code: seq<CodeLine>

    function Build(): MethodSpec
      reads this
    {
      MethodSpec(name, parameters, exceptions, code)
    }

    constructor (name: string)
      ensures Build() == MethodSpec(name, [], [], [])
    {
      this.name := name;
      parameters := [];
      exceptions := [];
      code := [];
    }

    method AddParameter(p: Param)
      modifies this
      ensures Build() == old(Build()).(parameters := old(parameters) + [p])
    {
      parameters := parameters + [p];
    }

    method AddStatement(format: string, args: seq<Arg>)
      modifies this
      ensures Build() == old(Build()).(code := old(code) + [Statement(format, args)])
    {
      code := code + [Statement(format, args)];
    }

    method BeginControlFlow(format: string, args: seq<Arg>)
      modifies this
      ensures Build() == old(Build()).(code := old(code) + [BeginFlow(format, args)])
    {
      code := code + [BeginFlow(format, args)];
    }

    method NextControlFlow(format: string, args: seq<Arg>)
      modifies this
      ensures Build() == old(Build()).(code := old(code) + [NextFlow(format, args)])
    {
      code := code + [NextFlow(format, args)];
    }

    method EndControlFlow()
      modifies this
      ensures Build() == old(Build()).(code := old(code) + [EndFlow])
    {
      code := code + [EndFlow];
    }
  }
}

=== FILE: service_generator.dfy ===
/** The service generator object: its naming conventions, the `pagination`
    flag that `Generate` sets and the list-method builders read, and the
    methods that grow method builders in place. Each method is proved to
    build the value that module ServiceSpec defines for it. */
module ServiceGenerator {
  import opened Poet
  import opened Text
  import opened ServiceSpec

  class ServiceGenerator {
    const suffix: string
    const repSuffix: string
    const classesPrefix: string
    /** Which copy of the generator this object is. */
    const package: Package

    /** The current entity's pagination setting, written by `Generate`. */
    var pagination: bool

    function Conventions(): Naming
    {
      Naming(suffix, repSuffix, classesPrefix)
    }

    constructor (suffix: string, repSuffix: string, classesPrefix: string, package: Package)
      ensures Conventions() == Naming(suffix, repSuffix, classesPrefix)
      ensures this.package == package && !pagination
    {
      this.suffix := suffix;
      this.repSuffix := repSuffix;
      this.classesPrefix := classesPrefix;
      this.package := package;
      pagination := false;
    }

    /** The service class for entity `name`; records the entity's pagination
        setting on the generator. */
    method Generate(name: string, crud: Crud, endpoints: seq<Element>, utils: EleUtils)
      returns (t: TypeSpec)
      requires AllLowerable(package, endpoints)
      modifies this
      ensures pagination == crud.pagination
      ensures t == ServiceClass(Conventions(), package, name, crud, endpoints, utils)
    {
      pagination := crud.pagination;

      var save := SaveMethod(utils);
      var one := OneMethod(name, utils);
      var all;
      if |crud.filterFields| > 0 {
        all := FilterableAll(crud.filterFields, utils);
      } else {
        all := SimpleAll();
      }
      var delete := DeleteMethod(utils);

      var repositoryClassName := classesPrefix + name + repSuffix;
      var fixed := [save, one, all, delete];
      var methods := fixed;
      var i := 0;
      while i < |endpoints|
        invariant 0 <= i <= |endpoints|
        invariant methods == fixed + EndpointMethods(package, endpoints[..i], utils)
      {
        methods := methods + [CreateEndpoint(package, endpoints[i], utils)];
        i := i + 1;
        assert EndpointMethods(package, endpoints[..i], utils)
          == EndpointMethods(package, endpoints[..i - 1], utils) + [CreateEndpoint(package, endpoints[i - 1], utils)];
      }
      assert endpoints[..i] == endpoints;
      t := TypeSpec(classesPrefix + name + suffix, true, true,
        [FieldSpec(RepositoryFieldName, repositoryClassName, true)], methods);
    }

    method CreateMethod(name: string) returns (b: MethodBuilder)
      ensures fresh(b)
      ensures b.Build() == MethodSpec(name, [], [], [])
    {
      b := new MethodBuilder(name);
    }

    method SimpleAll() returns (m: MethodSpec)
      ensures m == SimpleAllSpec(pagination)
    {
      var b := CreateMethod("all");
      if !pagination {
        b.AddStatement("return $T.ok(this.repository.findAll())", [TypeArg(ResponseEntity)]);
      } else {
        AddPageability(b);
        b.AddStatement("return $T.ok(this.repository.findAll(pageable))", [TypeArg(ResponseEntity)]);
      }
      m := b.Build();
    }

    method FilterableAll(filterFields: seq<string>, utils: EleUtils) returns (m: MethodSpec)
      ensures m == FilterableAllSpec(filterFields, pagination, utils)
    {
      var fields := filterFields;
      if |fields| == 1 && fields[0] == Wildcard {
        fields := utils.nonTransientFields;
      }
      var b := CreateMethod("allByFilter");
      AddArguments(b, fields, utils);
      if pagination {
        AddPageability(b);
      }
      var text := GetReturn(fields);
      b.AddStatement(text, [TypeArg(ResponseEntity)]);
      m := b.Build();
    }

    /** The query `allByFilter` returns, built by appending to a buffer. */
    method GetReturn(fields: seq<string>) returns (s: string)
      ensures s == ReturnText(fields, pagination)
    {
      var buffer := ReturnPrefix;
      var i := 0;
      while i < |fields|
        invariant 0 <= i <= |fields|
        invariant buffer == ReturnPrefix + Join(fields[..i]) + (if 0 < i < |fields| then ", " else "")
      {
        var field := fields[i];
        assert fields[..i + 1] == fields[..i] + [field];
        if i > 0 {
          JoinSnoc(fields[..i], field);
        }
        buffer := buffer + field;
        if i < |fields| - 1 {
          buffer := buffer + ", ";
        }
        i := i + 1;
      }
      assert fields[..i] == fields;
      if pagination {
        buffer := buffer + ", pageable";
      }
      buffer := buffer + "))";
      s := buffer;
    }

    /** Adds one parameter per field, in the given order. */
    method AddArguments(b: MethodBuilder, fields: seq<string>, utils: EleUtils)
      modifies b
      ensures b.Build() == old(b.Build()).(parameters := old(b.parameters) + FieldParams(fields, utils))
    {
      var i := 0;
      while i < |fields|
        invariant 0 <= i <= |fields|
        invariant b.Build() == old(b.Build()).(parameters := old(b.parameters) + FieldParams(fields[..i], utils))
      {
        var field := fields[i];
        b.AddParameter(Param(field, utils.fieldType(field)));
        i := i + 1;
        assert FieldParams(fields[..i], utils) == FieldParams(fields[..i - 1], utils) + [Param(field, utils.fieldType(field))];
      }
      assert fields[..i] == fields;
    }

    /** Adds `page` and `pageSize` and the block that chooses the window. */
    method AddPageability(b: MethodBuilder)
      modifies b
      ensures b.Build() == old(b.Build()).(parameters := old(b.parameters) + PageParams,
                                           code := old(b.code) + PageableCode)
    {
      b.AddParameter(Param("page", JavaInteger));
      b.AddParameter(Param("pageSize", JavaInteger));
      b.AddStatement("$T pageable", [TypeArg(Pageable)]);
      b.BeginControlFlow("if (page == null || pageSize == null)", []);
      b.AddStatement("pageable = $T.of(0, $T.MAX_VALUE)", [TypeArg(PageRequest), TypeArg(JavaInteger)]);
      b.NextControlFlow("else", []);
      b.AddStatement("pageable = $T.of(page, pageSize)", [TypeArg(PageRequest)]);
      b.EndControlFlow();
    }
  }
}

=== FILE: service_properties.dfy ===
/** Properties of the generated service class: method order, the list-method
    policy, wildcard resolution, the filtered query and its parameters,
    pagination, the page window, naming, and the endpoint lowering of both
    copies of the generator. */
module ServiceProperties {
  import opened Poet
  import opened Text
  import opened ServiceSpec

  function ElementNames(es: seq<Element>): seq<string>
  {
    MapSeq(es, (e: Element) => e.name)
  }

  /** `save`, `one`, the list method and `delete`, then one method per
      endpoint, named after it, in input order. */
  lemma MethodOrder(naming: Naming, pkg: Package, name: string, crud: Crud,
                    endpoints: seq<Element>, u: EleUtils)
    requires AllLowerable(pkg, endpoints)
    ensures var t := ServiceClass(naming, pkg, name, crud, endpoints, u);
      |t.methods| == 4 + |endpoints|
      && t.methods[..4] == [SaveMethod(u), OneMethod(name, u), ListMethod(crud, u), DeleteMethod(u)]
      && MethodNames(t.methods) == ["save", "one", ListMethod(crud, u).name, "delete"] + ElementNames(endpoints)
  {
    var t := ServiceClass(naming, pkg, name, crud, endpoints, u);
    var fixed := [SaveMethod(u), OneMethod(name, u), ListMethod(crud, u), DeleteMethod(u)];
    var rest := EndpointMethods(pkg, endpoints, u);
    assert t.methods == fixed + rest;
    NamesAppend(fixed, rest);
    assert MethodNames(fixed) == ["save", "one", ListMethod(crud, u).name, "delete"];
    assert MethodNames(rest) == ElementNames(endpoints);
  }

  lemma NamesAppend(a: seq<MethodSpec>, b: seq<MethodSpec>)
    ensures MethodNames(a + b) == MethodNames(a) + MethodNames(b)
  {
  }

  /** A field endpoint takes only `id` and reads the field through
      `get` + its capitalised name; in the `has` copy so does every endpoint
      that is not executable. */
  lemma FieldEndpointAccessor(pkg: Package, e: Element, u: EleUtils)
    requires e.FieldElement? || pkg == Main
    requires |e.name| > 0
    ensures var m := CreateEndpoint(pkg, e, u);
      m.parameters == [IdParam(u)]
      && EndsWith(m.code[0].format, ".get" + Capitalize(e.name) + "())")
      && m.code[0].format
         == LookupText + (if pkg == Has then "\n" else "") + ".get" + Capitalize(e.name) + "())"
  {
    var m := CreateEndpoint(pkg, e, u);
    var tail := ".get" + Capitalize(e.name) + "())";
    var f := m.code[0].format;
    assert f == (LookupText + (if pkg == Has then "\n" else "")) + tail;
  }

  /** In the `main` copy an executable element is lowered exactly as a field
      of the same name would be. */
  lemma MainEndpointIsAccessor(e: Element, u: EleUtils)
    requires |e.name| > 0
    ensures CreateEndpoint(Main, e, u) == CreateEndpoint(Main, FieldElement(e.name, e.enclosing), u)
    ensures CreateEndpoint(Main, e, u).parameters == [IdParam(u)]
  {
  }

  /** An executable endpoint in the `has` copy takes `id` and then the
      member's parameters in order; its names repeat nothing exactly when the
      member's own do not and none of them is `id`. Its call forwards the
      parameters after `id` by name, in order: this half holds because the
      call text and the added parameters are both taken from the member's own
      parameter list, as the element utilities are assumed to do. */
  lemma MethodEndpointForwards(e: Element, u: EleUtils)
    requires e.ExecutableElement?
    ensures var m := CreateEndpoint(Has, e, u);
      m.parameters == [IdParam(u)] + e.parameters
      && m.code[0].format
         == LookupText + "." + e.name + "(" + Join(ParamNames(m.parameters[1..])) + "))"
      && (Distinct(ParamNames(m.parameters))
          <==> Distinct(ParamNames(e.parameters)) && "id" !in ParamNames(e.parameters))
  {
    var m := CreateEndpoint(Has, e, u);
    assert m.parameters[1..] == e.parameters;
    assert ParamNames(m.parameters) == ["id"] + ParamNames(e.parameters);
    DistinctAppend(["id"], ParamNames(e.parameters));
  }

  /** The list method is `allByFilter` exactly when the annotation's field
      array is non-empty (even if a wildcard resolves to no field), and `all`
      exactly when it is empty. */
  lemma ListMethodSelection(crud: Crud, u: EleUtils)
    ensures ListMethod(crud, u).name == "allByFilter" <==> |crud.filterFields| > 0
    ensures ListMethod(crud, u).name == "all" <==> |crud.filterFields| == 0
    ensures ListMethod(crud, u).exceptions == []
  {
  }

  /** `allByFilter` takes the resolved fields, each named after and typed as
      its field, then `page` and `pageSize` exactly when paginating. */
  lemma FilterParameters(fields: seq<string>, pagination: bool, u: EleUtils)
    ensures var m := FilterableAllSpec(fields, pagination, u);
      var r := ResolveFields(fields, u.nonTransientFields);
      |m.parameters| == |r| + (if pagination then 2 else 0)
      && (forall i :: 0 <= i < |r| ==> m.parameters[i] == Param(r[i], u.fieldType(r[i])))
      && m.parameters[|r|..] == (if pagination then PageParams else [])
  {
    var m := FilterableAllSpec(fields, pagination, u);
    var r := ResolveFields(fields, u.nonTransientFields);
    assert m.parameters == FieldParams(r, u) + (if pagination then PageParams else []);
  }

  /** The names of `allByFilter`'s parameters repeat nothing exactly when the
      resolved fields repeat nothing and, when paginating, none of them is
      called `page` or `pageSize`. */
  lemma FilterParameterNamesDistinct(fields: seq<string>, pagination: bool, u: EleUtils)
    ensures var m := FilterableAllSpec(fields, pagination, u);
      var r := ResolveFields(fields, u.nonTransientFields);
      Distinct(ParamNames(m.parameters))
      <==> Distinct(r) && (pagination ==> "page" !in r && "pageSize" !in r)
  {
    var m := FilterableAllSpec(fields, pagination, u);
    var r := ResolveFields(fields, u.nonTransientFields);
    var extra := if pagination then ["page", "pageSize"] else [];
    assert ParamNames(m.parameters) == r + extra;
    DistinctAppend(r, extra);
  }

  /** The query of `allByFilter` passes its field parameters by name, in
      order, then `pageable` exactly when paginating. */
  lemma FilterQueryForwardsParameters(fields: seq<string>, pagination: bool, u: EleUtils)
    ensures var m := FilterableAllSpec(fields, pagination, u);
      var r := ResolveFields(fields, u.nonTransientFields);
      |m.code| > 0 && m.code[|m.code| - 1]
        == Statement(ReturnPrefix + Join(ParamNames(m.parameters)[..|r|])
                       + (if pagination then ", pageable" else "") + "))",
                     [TypeArg(ResponseEntity)])
  {
    var m := FilterableAllSpec(fields, pagination, u);
    var r := ResolveFields(fields, u.nonTransientFields);
    assert ParamNames(m.parameters)[..|r|] == r;
  }

  /** One more field in the query adds one separator and the field, before
      the pagination tail; none follows the last field. */
  lemma ReturnTextSeparators(fields: seq<string>, x: string, pagination: bool)
    requires |fields| > 0
    ensures ReturnText(fields + [x], pagination)
      == ReturnPrefix + Join(fields) + ", " + x + (if pagination then ", pageable" else "") + "))"
  {
    JoinSnoc(fields, x);
    Regroup(ReturnPrefix, Join(fields), x, if pagination then ", pageable" else "");
  }

  lemma Regroup(prefix: string, joined: string, x: string, page: string)
    ensures prefix + (joined + ", " + x) + page + "))" == prefix + joined + ", " + x + page + "))"
  {
  }

  /** A wildcard over an entity without non-transient fields, with pagination
      on, yields a query whose argument list starts with a bare separator. */
  lemma EmptyWildcardQuery(u: EleUtils)
    requires u.nonTransientFields == []
    ensures FilterableAllSpec([Wildcard], true, u).parameters == PageParams
    ensures FilterableAllSpec([Wildcard], true, u).code[|PageableCode|]
      == Statement("return $T.ok(this.repository.allByFilter(, pageable))", [TypeArg(ResponseEntity)])
  {
    assert ResolveFields([Wildcard], u.nonTransientFields) == [];
    assert Join([]) == "";
  }

  /** Pagination, shared by both list methods: when on, `page` and `pageSize`
      close the parameter list, the window block opens the body and the query
      takes the window last; when off, none of this is emitted. */
  lemma PaginationLowering(crud: Crud, u: EleUtils)
    ensures var m := ListMethod(crud, u);
      var n := |m.parameters|;
      if crud.pagination then
        n >= 2 && m.parameters[n - 2..] == PageParams
        && |m.code| == |PageableCode| + 1 && m.code[..|PageableCode|] == PageableCode
        && m.code[|PageableCode|].Statement?
        && EndsWith(m.code[|PageableCode|].format, "pageable))")
      else
        |m.code| == 1 && (|crud.filterFields| == 0 ==> m.parameters == [])
  {
    var m := ListMethod(crud, u);
    if |crud.filterFields| > 0 {
      FilterParameters(crud.filterFields, crud.pagination, u);
      if crud.pagination {
        var r := ResolveFields(crud.filterFields, u.nonTransientFields);
        var f := m.code[|PageableCode|].format;
        assert f == (ReturnPrefix + Join(r) + ", ") + "pageable))";
      }
    }
  }

  /** The emitted window rule is joint, not per argument: one missing
      argument discards the other, so the window equals the one with both
      missing, and a present argument survives only beside the other. */
  lemma PageWindowJointDefault(page: Option<int>, pageSize: Option<int>)
    ensures page.None? || pageSize.None? ==> PageWindow(page, pageSize) == PageWindow(None, None)
    ensures pageSize.Some? && pageSize.value != IntegerMaxValue
            ==> PageWindow(None, pageSize).1 != pageSize.value
    ensures page.Some? && page.value != 0 ==> PageWindow(page, None).0 != page.value
  {
  }

  /** The window block opens on exactly the null test of either argument,
      the condition whose meaning `PageWindow` gives. */
  lemma PageGuardText()
    ensures PageableCode[1] == BeginFlow("if (page == null || pageSize == null)", [])
  {
  }

  /** Entity `Order` with a field `status` and an argument-free executable
      `recalculate`, no filter and no pagination, in the `has` copy. */
  lemma OrderScenario(naming: Naming, u: EleUtils)
    ensures var endpoints := [FieldElement("status", "Order"), ExecutableElement("recalculate", "Order", [])];
      AllLowerable(Has, endpoints)
      && MethodNames(ServiceClass(naming, Has, "Order", Crud(false, []), endpoints, u).methods)
         == ["save", "one", "all", "delete", "status", "recalculate"]
  {
    var endpoints := [FieldElement("status", "Order"), ExecutableElement("recalculate", "Order", [])];
    assert AllLowerable(Has, endpoints);
    MethodOrder(naming, Has, "Order", Crud(false, []), endpoints, u);
    assert ElementNames(endpoints) == ["status", "recalculate"];
  }

  /** Entity `Product` filtered by `category` and `minPrice`, no pagination. */
  lemma ProductScenario(u: EleUtils)
    ensures var m := ListMethod(Crud(false, ["category", "minPrice"]), u);
      m.name == "allByFilter"
      && ParamNames(m.parameters) == ["category", "minPrice"]
      && m.code == [Statement("return $T.ok(this.repository.allByFilter(category, minPrice))",
                              [TypeArg(ResponseEntity)])]
  {
    var fields := ["category", "minPrice"];
    assert ResolveFields(fields, u.nonTransientFields) == fields;
    assert Join(fields) == "category, minPrice" by {
      assert fields[1..] == ["minPrice"];
    }
    assert ReturnText(fields, false) == "return $T.ok(this.repository.allByFilter(category, minPrice))";
    var m := ListMethod(Crud(false, fields), u);
    assert m == FilterableAllSpec(fields, false, u);
    assert m.code == [Statement(ReturnText(fields, false), [TypeArg(ResponseEntity)])];
    assert ParamNames(m.parameters) == fields;
  }

  /** Entity `User` paginated without filter: `all(page, pageSize)`, and a
      call with only `pageSize = 5` queries the unrestricted window. */
  lemma UserScenario(u: EleUtils)
    ensures ParamNames(ListMethod(Crud(true, []), u).parameters) == ["page", "pageSize"]
    ensures PageWindow(None, Some(5)) == PageWindow(None, None) != (0, 5)
  {
  }
}

=== FILE: service_spec.dfy ===
/** What the service generator produces, as pure functions of its inputs: one
    function per generated method, the list-method policy, wildcard resolution,
    the text of the filtered query, the endpoint lowering and the whole class.
    The imperative generator in module ServiceGenerator is proved to build
    exactly these values. */
module ServiceSpec {
  import opened Poet
  import opened Text

  /** The two copies of the generator: `has.generators.crud` dispatches
      executable endpoints to their own lowering, `main.generators.crud`
      lowers every endpoint as a field accessor. */
  datatype Package = Has | Main

  datatype Option<T> = None | Some(value: T)

  /** The parts of the `@CRUD` annotation the generator reads:
      `pagination()` and `filter().fields()`. */
  datatype Crud = Crud(pagination: bool, filterFields: seq<string>)

  /** An endpoint element: a field, or an executable member with its own
      declared parameters. `enclosing` is the simple name of the element that
      declares it. */
  datatype Element =
    | FieldElement(name: string, enclosing: string)
    | ExecutableElement(name: string, enclosing: string, parameters: seq<Param>)

  /** What the generator learns about the current entity from its element
      utilities: the entity's type and its identifier's type, the entity's
      non-transient field names in declaration order, and each field's type. */
  datatype EleUtils = EleUtils(
    entityType: TypeRef,
    idType: TypeRef,
    nonTransientFields: seq<string>,
    fieldType: string -> TypeRef)

  /** The naming conventions the generator is constructed with. */
  datatype Naming = Naming(suffix: string, repSuffix: string, classesPrefix: string)

  const Wildcard := "*"
  const RepositoryFieldName := "repository"

  /** Java's `Integer.MAX_VALUE`. */
  const IntegerMaxValue := 0x7fff_ffff

  function EntityParam(u: EleUtils): Param
  {
    Param("entity", u.entityType)
  }

  function IdParam(u: EleUtils): Param
  {
    Param("id", u.idType)
  }

  const PageParams := [Param("page", JavaInteger), Param("pageSize", JavaInteger)]

  /** The page-window block that pagination adds to a list method's body;
      `PageWindow` gives the meaning of its condition. */
  const PageableCode: seq<CodeLine> := [
    Statement("$T pageable", [TypeArg(Pageable)]),
    BeginFlow("if (page == null || pageSize == null)", []),
    Statement("pageable = $T.of(0, $T.MAX_VALUE)", [TypeArg(PageRequest), TypeArg(JavaInteger)]),
    NextFlow("else", []),
    Statement("pageable = $T.of(page, pageSize)", [TypeArg(PageRequest)]),
    EndFlow
  ]

  /** The look-up-or-throw expression shared by `one` and every endpoint. */
  const LookupText := "return $T.ok(this.repository.findById(id)\n.orElseThrow(() -> new $T($S, id))"

  /** `$T`, `$T`, `$S` of the look-up: the response type, the exception type
      and the name the exception carries. */
  function LookupArgs(owner: string): seq<Arg>
  {
    [TypeArg(ResponseEntity), TypeArg(EntityNotFoundException), StringArg(owner)]
  }

  const ReturnPrefix := "return $T.ok(this.repository.allByFilter("

  /** `save(entity)`: returns the saved entity; declares nothing. */
  function SaveMethod(u: EleUtils): (m: MethodSpec)
    ensures m.name == "save" && m.parameters == [EntityParam(u)] && m.exceptions == []
    ensures |m.code| == 1 && m.code[0].Statement? && m.code[0].args == [TypeArg(ResponseEntity)]
    ensures StartsWith(m.code[0].format, "return $T.ok(this.repository.save(")
    ensures m.code == [Statement("return $T.ok(this.repository.save(" + EntityParam(u).name + "))",
                                 [TypeArg(ResponseEntity)])]
  {
    MethodSpec("save", [EntityParam(u)], [],
      [Statement("return $T.ok(this.repository.save(" + "entity" + "))", [TypeArg(ResponseEntity)])])
  }

  /** `one(id)`: the look-up, whose exception carries the entity's own name. */
  function OneMethod(name: string, u: EleUtils): (m: MethodSpec)
    ensures m.name == "one" && m.parameters == [IdParam(u)]
    ensures m.exceptions == [EntityNotFoundException]
    ensures |m.code| == 1 && m.code[0].Statement? && m.code[0].args == LookupArgs(name)
    ensures m.code[0].args[2] == StringArg(name)
    ensures StartsWith(m.code[0].format, LookupText)
  {
    MethodSpec("one", [IdParam(u)], [EntityNotFoundException],
      [Statement(LookupText + ")", LookupArgs(name))])
  }

  /** `delete(id)`: deletes by id, then answers with no content; declares
      nothing. */
  function DeleteMethod(u: EleUtils): (m: MethodSpec)
    ensures m.name == "delete" && m.parameters == [IdParam(u)] && m.exceptions == []
    ensures |m.code| == 2 && m.code[0] == Statement("this.repository.deleteById(id)", [])
    ensures m.code[1] == Statement("return new $T($T.NO_CONTENT)", [TypeArg(ResponseEntity), TypeArg(HttpStatus)])
  {
    MethodSpec("delete", [IdParam(u)], [],
      [Statement("this.repository.deleteById(id)", []),
       Statement("return new $T($T.NO_CONTENT)", [TypeArg(ResponseEntity), TypeArg(HttpStatus)])])
  }

  /** The unfiltered list method `all`. */
  function SimpleAllSpec(pagination: bool): MethodSpec
  {
    if pagination then
      MethodSpec("all", PageParams, [],
        PageableCode + [Statement("return $T.ok(this.repository.findAll(pageable))", [TypeArg(ResponseEntity)])])
    else
      MethodSpec("all", [], [],
        [Statement("return $T.ok(this.repository.findAll())", [TypeArg(ResponseEntity)])])
  }

  /** The filter fields after wildcard resolution: exactly `["*"]` stands for
      the entity's non-transient fields; anything else is kept as given. */
  function ResolveFields(fields: seq<string>, nonTransient: seq<string>): (r: seq<string>)
    ensures fields == [Wildcard] ==> r == nonTransient
    ensures fields != [Wildcard] ==> r == fields
  {
    if |fields| == 1 && fields[0] == Wildcard then
      assert fields == [Wildcard];
      nonTransient
    else
      fields
  }

  /** One parameter per filter field, named after it and typed as it. */
  function FieldParams(fields: seq<string>, u: EleUtils): (ps: seq<Param>)
    ensures |ps| == |fields|
    ensures forall i :: 0 <= i < |fields| ==> ps[i] == Param(fields[i], u.fieldType(fields[i]))
  {
    seq(|fields|, i requires 0 <= i < |fields| => Param(fields[i], u.fieldType(fields[i])))
  }

  /** The returned query of `allByFilter`. */
  function ReturnText(fields: seq<string>, pagination: bool): string
  {
    ReturnPrefix + Join(fields) + (if pagination then ", pageable" else "") + "))"
  }

  /** The filtered list method `allByFilter` for the annotation's field array. */
  function FilterableAllSpec(fields: seq<string>, pagination: bool, u: EleUtils): MethodSpec
  {
    var resolved := ResolveFields(fields, u.nonTransientFields);
    MethodSpec("allByFilter",
      FieldParams(resolved, u) + (if pagination then PageParams else []),
      [],
      (if pagination then PageableCode else [])
        + [Statement(ReturnText(resolved, pagination), [TypeArg(ResponseEntity)])])
  }

  /** The list method: filtered exactly when the annotation names any field. */
  function ListMethod(crud: Crud, u: EleUtils): MethodSpec
  {
    if |crud.filterFields| > 0 then FilterableAllSpec(crud.filterFields, crud.pagination, u)
    else SimpleAllSpec(crud.pagination)
  }

  /** A field endpoint: `id` only, looked up and then read through its getter.
      The two copies differ in one line break before `.get`. */
  function FieldEndpoint(pkg: Package, name: string, owner: string, u: EleUtils): (m: MethodSpec)
    requires |name| > 0
    ensures m.name == name && m.parameters == [IdParam(u)]
    ensures m.exceptions == [EntityNotFoundException]
    ensures |m.code| == 1 && m.code[0].Statement? && m.code[0].args == LookupArgs(owner)
    ensures StartsWith(m.code[0].format, LookupText)
    ensures EndsWith(m.code[0].format, ".get" + Capitalize(name) + "())")
  {
    var lineBreak := if pkg == Has then "\n" else "";
    var tail := ".get" + Capitalize(name) + "())";
    var format := LookupText + lineBreak + tail;
    assert format == LookupText + (lineBreak + tail);
    MethodSpec(name, [IdParam(u)], [EntityNotFoundException], [Statement(format, LookupArgs(owner))])
  }

  /** The argument list of a forwarding call: the parameters' names in order. */
  function CallArguments(ps: seq<Param>): string
  {
    "(" + Join(ParamNames(ps)) + ")"
  }

  /** An executable endpoint: `id` then the member's own parameters, looked up
      and then forwarded to the member. */
  function MethodEndpoint(name: string, owner: string, ps: seq<Param>, u: EleUtils): (m: MethodSpec)
    ensures m.name == name && m.parameters == [IdParam(u)] + ps
    ensures m.exceptions == [EntityNotFoundException]
    ensures |m.code| == 1 && m.code[0].Statement? && m.code[0].args == LookupArgs(owner)
    ensures StartsWith(m.code[0].format, LookupText)
    ensures EndsWith(m.code[0].format, "." + name + CallArguments(ps) + ")")
  {
    var tail := "." + name + CallArguments(ps) + ")";
    var format := LookupText + "." + name + CallArguments(ps) + ")";
    assert format == LookupText + tail;
    MethodSpec(name, [IdParam(u)] + ps, [EntityNotFoundException], [Statement(format, LookupArgs(owner))])
  }

  /** An endpoint can be lowered when any name it is accessed by is non-empty
      (its first character is upper-cased). */
  predicate Lowerable(pkg: Package, e: Element)
  {
    (pkg == Has && e.ExecutableElement?) || |e.name| > 0
  }

  /** The endpoint method of one element: named after it, taking `id` first,
      declaring only `EntityNotFoundException`, with one look-up statement
      whose exception carries the declaring element's name. Only an
      executable in the `has` copy takes further parameters (its own). */
  function CreateEndpoint(pkg: Package, e: Element, u: EleUtils): (m: MethodSpec)
    requires Lowerable(pkg, e)
    ensures m.name == e.name
    ensures |m.parameters| > 0 && m.parameters[0] == IdParam(u)
    ensures m.parameters == if pkg == Has && e.ExecutableElement? then [IdParam(u)] + e.parameters
                            else [IdParam(u)]
    ensures m.exceptions == [EntityNotFoundException]
    ensures |m.code| == 1 && m.code[0].Statement? && m.code[0].args == LookupArgs(e.enclosing)
    ensures StartsWith(m.code[0].format, LookupText)
  {
    if pkg == Has && e.ExecutableElement? then MethodEndpoint(e.name, e.enclosing, e.parameters, u)
    else FieldEndpoint(pkg, e.name, e.enclosing, u)
  }

  predicate AllLowerable(pkg: Package, endpoints: seq<Element>)
  {
    forall i :: 0 <= i < |endpoints| ==> Lowerable(pkg, endpoints[i])
  }

  function EndpointMethods(pkg: Package, endpoints: seq<Element>, u: EleUtils): (ms: seq<MethodSpec>)
    requires AllLowerable(pkg, endpoints)
    ensures |ms| == |endpoints|
    ensures forall i :: 0 <= i < |endpoints| ==> ms[i] == CreateEndpoint(pkg, endpoints[i], u)
  {
    seq(|endpoints|, i requires 0 <= i < |endpoints| && Lowerable(pkg, endpoints[i]) =>
      CreateEndpoint(pkg, endpoints[i], u))
  }

  /** The whole generated service class: public, a component, named
      `classesPrefix + name + suffix`, with the injected `repository` field
      as its only field, then `save`, `one`, the list method and `delete`,
      followed by one method per endpoint in input order. */
  function ServiceClass(naming: Naming, pkg: Package, name: string, crud: Crud,
                        endpoints: seq<Element>, u: EleUtils): (t: TypeSpec)
    requires AllLowerable(pkg, endpoints)
    ensures t.name == naming.classesPrefix + name + naming.suffix
    ensures t.isPublic && t.component
    ensures t.fields == [FieldSpec("repository", naming.classesPrefix + name + naming.repSuffix, true)]
    ensures |t.methods| == 4 + |endpoints|
    ensures t.methods[..4] == [SaveMethod(u), OneMethod(name, u), ListMethod(crud, u), DeleteMethod(u)]
    ensures forall i :: 0 <= i < |endpoints| ==> t.methods[4 + i] == CreateEndpoint(pkg, endpoints[i], u)
  {
    TypeSpec(naming.classesPrefix + name + naming.suffix, true, true,
      [FieldSpec(RepositoryFieldName, naming.classesPrefix + name + naming.repSuffix, true)],
      [SaveMethod(u), OneMethod(name, u), ListMethod(crud, u), DeleteMethod(u)]
        + EndpointMethods(pkg, endpoints, u))
  }

  /** The window a generated list method queries with, for the arguments it is
      called with (`None` for a null `Integer`). It is the meaning of the
      emitted block `PageableCode`: its condition
      "page == null || pageSize == null" chooses `PageRequest.of(0,
      Integer.MAX_VALUE)`, and otherwise `PageRequest.of(page, pageSize)`. */
  function PageWindow(page: Option<int>, pageSize: Option<int>): (w: (int, int))
    ensures page.None? || pageSize.None? ==> w == (0, IntegerMaxValue)
    ensures page.Some? && pageSize.Some? ==> w == (page.value, pageSize.value)
  {
    if page.None? || pageSize.None? then (0, IntegerMaxValue) else (page.value, pageSize.value)
  }
}

=== FILE: text.dfy ===
/** The string operations the generator performs on names and argument lists. */
module Text {

  /** The parts separated by ", ", with no separator after the last one. */
  function Join(parts: seq<string>): string
  {
    if |parts| == 0 then ""
    else if |parts| == 1 then parts[0]
    else parts[0] + ", " + Join(parts[1..])
  }

  /** Appending a part adds exactly one separator, in front of it. */
  lemma {:induction false} JoinSnoc(parts: seq<string>, x: string)
    requires |parts| > 0
    ensures Join(parts + [x]) == Join(parts) + ", " + x
  {
    if |parts| == 1 {
      assert parts + [x] == [parts[0], x];
      assert [parts[0], x][1..] == [x];
    } else {
      assert (parts + [x])[1..] == parts[1..] + [x];
      JoinSnoc(parts[1..], x);
    }
  }

  predicate IsLowerAscii(c: char)
  {
    'a' <= c <= 'z'
  }

  /** ASCII upper-casing of one character; other characters are kept. */
  function UpperAscii(c: char): (u: char)
    ensures !IsLowerAscii(u)
    ensures IsLowerAscii(c) ==> u as int == c as int - 32 && 'A' <= u <= 'Z'
    ensures !IsLowerAscii(c) ==> u == c
  {
    if IsLowerAscii(c) then (c as int - 32) as char else c
  }

  /** The name with its first character upper-cased, as used after `get`. */
  function Capitalize(s: string): (r: string)
    requires |s| > 0
    ensures |r| == |s|
    ensures r[1..] == s[1..]
    ensures !IsLowerAscii(r[0])
    ensures r[0] != s[0] ==> IsLowerAscii(s[0]) && r[0] as int == s[0] as int - 32
  {
    [UpperAscii(s[0])] + s[1..]
  }

  predicate EndsWith(s: string, suffix: string)
  {
    |suffix| <= |s| && s[|s| - |suffix|..] == suffix
  }

  predicate StartsWith(s: string, prefix: string)
  {
    |prefix| <= |s| && s[..|prefix|] == prefix
  }

  predicate Distinct(s: seq<string>)
  {
    forall i, j :: 0 <= i < j < |s| ==> s[i] != s[j]
  }

  /** Two sequences put together repeat nothing exactly when neither does and
      they share no element. */
  lemma DistinctAppend(a: seq<string>, b: seq<string>)
    ensures Distinct(a + b) <==> Distinct(a) && Distinct(b) && (forall x :: x in a ==> x !in b)
  {
    var ab := a + b;
    if Distinct(ab) {
      forall i, j | 0 <= i < j < |a| ensures a[i] != a[j] {
        assert ab[i] == a[i] && ab[j] == a[j];
      }
      forall i, j | 0 <= i < j < |b| ensures b[i] != b[j] {
        assert ab[|a| + i] == b[i] && ab[|a| + j] == b[j];
      }
      forall i, j | 0 <= i < |a| && 0 <= j < |b| ensures a[i] != b[j] {
        assert ab[i] == a[i] && ab[|a| + j] == b[j];
      }
    }
    if Distinct(a) && Distinct(b) && (forall x :: x in a ==> x !in b) {
      forall i, j | 0 <= i < j < |ab| ensures ab[i] != ab[j] {
        if j < |a| {
        } else if i >= |a| {
          assert ab[i] == b[i - |a|] && ab[j] == b[j - |a|];
        } else {
          assert ab[i] in a && ab[j] in b;
        }
      }
    }
  }
}
